=== FILE: README.md ===
# PWM fan controller: control algorithm and device state machine

A Dafny model of the control core of a closed-loop fan controller for a
single-board computer. The controller maps the hottest thermal-zone
temperature to a discrete cooling state and writes it to a PWM fan's
`cur_state` file. The model covers four things:

- the temperature-to-state lookup table, and the rule that selects a state
  from it (`FanControl`, src/fan.rs);
- the one-time configuration validation (`Configuration`, src/config.rs);
- the per-tick state machine of the current controller, which uses the
  cached last state to skip redundant writes (`Controller`, src/checker.rs);
- the earlier revision, which reads `cur_state` before writing
  (`LegacyController`, src/cheker.rs, the module src/lib.rs declares), and
  the original single-file controller (`Standalone`, src/main.rs).

Temperatures are `real`. Cooling states are the subset type `u32`.

Every filesystem interaction is an oracle outcome passed in as a value. These
are device discovery (including the thermal-zone scan that building a fan
handle performs), the `max_state`, `cur_state` and sensor reads, and
whether the `cur_state` write succeeds. A tick of each `Checker` revision
(src/checker.rs, src/cheker.rs) is a method of a class holding its fields. Its
postcondition equates the new fields, the written value and any
abort with a pure function of the old fields and the oracle outcomes (`Controller.Step`,
`LegacyController.LegacyStep`). The lemmas about the controller's behaviour
are stated over that function. The single-file controller of src/main.rs
keeps its `is_init` flag in `main`, so its tick, `Standalone.AdjustSpeed`, is a
module-level method that takes the flag in and returns it. A Rust `panic!`/`unwrap` failure is an `abort`
outcome that leaves the fields unchanged.

Points of the source behaviour the model makes explicit:

- The table formula puts the last breakpoint exactly on `threshold.max`
  (src/fan.rs:70-81). For 45..70 °C and states 0..5 the breakpoints are 45,
  51.25, 57.5, 63.75 and 70. `FanControl.UnitTestTable` proves the example
  of the unit test at src/fan.rs:292-339.
- src/fan.rs defines no `choose_speed`; src/checker.rs:75 calls it. It is
  modelled as the selection rule of src/fan.rs:331-337, which takes the last
  slot whose breakpoint is at or below the temperature, with no clamp added.
  The below-range and above-range behaviour then follows as lemmas:
  `FanControl.BelowRangeSelectsMin` and `FanControl.AboveRangeSelectsCeiling`.
- src/checker.rs:86-89 sets `is_init` before the write, whatever the
  write's outcome.
- src/cheker.rs:75-92 keeps the sensor handle when a read fails. It only
  refreshes the handle's path.
- `Fan::new_fan_device` (src/fan.rs:26-38) panics when `max_state` is
  unreadable and when its thermal-zone scan finds no readable sensor, in
  that order, before it builds the table and validates the configuration.

Where the model departs from the code: with a single slot, src/fan.rs:69-84
produces a NaN breakpoint, so that slot is never selected (see Findings).
`FanAsWritten` models that behaviour. The rest of the model uses the corrected
single-slot entry `(state.min + 1, threshold.min)`. So `FanControl.CalculateSlots`,
`Controller.Step` and `LegacyController.LegacyStep` model the corrected table
for one-slot configurations.

## Model

| member | source | states |
|---|---|---|
| `Configuration.CheckConfig` | src/config.rs:104-131 | passes iff the config is `Accepted`: `threshold.min < threshold.max`, and with a configured `state.max` also `state.min < max` and `max <= fan.max_state` when a fan is present. `threshold.min >= threshold.max` gives the threshold error whatever the states. `state.min == max` is rejected. `max == max_state` passes. With no fan the device bound is never the failure. With `state.max = None` only the threshold is checked |
| `Configuration.NoFanSkipsDeviceBound` | src/config.rs:119-129 | leaving out the fan changes the verdict only where the device bound would have failed |
| `FanControl.BreakpointFacts` | src/fan.rs:70-81 | breakpoint 0 is exactly `threshold.min` and breakpoint `n-1` exactly `threshold.max`. Consecutive breakpoints are one `step` apart. For an ordered range the breakpoints strictly increase and stay within it |
| `FanControl.CalculateSlots` | src/fan.rs:68-85 | the table has `effective max - state.min` entries, and entry `i` has state `state.min + 1 + i`. It starts at `threshold.min` and ends at `threshold.max` from two slots on, with consecutive breakpoints one step apart. States strictly increase. For `threshold.min < threshold.max` the breakpoints strictly increase inside the range |
| `FanControl.GetTemperatureSlots` | src/fan.rs:100-116 | the empty table when the effective max state is 0. Otherwise it fails exactly when `state.min` exceeds the effective max (the u32 subtraction of line 69), else it returns exactly the `CalculateSlots` table for the effective max |
| `FanControl.LastAtOrBelow` | src/fan.rs:331-336 | the index of the last slot whose breakpoint is `<= t`, or none when every breakpoint is above `t` |
| `FanControl.ChooseSpeed` | src/fan.rs:331-337 | `state.min` when no breakpoint is `<= t`. Otherwise the state of a slot of the table |
| `FanControl.ChooseSpeedSelectsLast` | src/fan.rs:331-337 | when some breakpoint is `<= t`, the chosen state is that of the last slot whose breakpoint is `<= t` |
| `FanControl.NewFanDevice` | src/fan.rs:26-38 | an unreadable `max_state` aborts first, then a failed thermal-zone scan. A table-building failure wins over a validation failure. Success iff `max_state` reads, a sensor is found, the table builds and the config passes validation against this device. The handle carries that device's `max_state` and table, and no cached state |
| `FanControl.FanNew` | src/fan.rs:118-129 | no device found gives no handle (not an error). A found device succeeds iff `NewFanDevice` does, and yields its handle |
| `FanControl.ChooseSpeedInRange` | src/fan.rs:77-84 | for a built fan the selected state is `state.min`, or lies above it, at most the effective ceiling and at most the device's `max_state` |
| `FanControl.ChooseSpeedMonotone` | src/fan.rs:331-337 | for a table with non-decreasing states none below `state.min`, selection is monotone non-decreasing in the temperature |
| `FanControl.BuiltFanMonotone` | src/fan.rs:331-337 | selection on any built fan's table is monotone in the temperature |
| `FanControl.BelowRangeSelectsMin` | src/fan.rs:331-337 | below `threshold.min` a built fan selects `state.min` |
| `FanControl.AboveRangeSelectsCeiling` | src/fan.rs:331-337 | at or above `threshold.max` a built fan with a non-inverted state range selects the effective max state |
| `FanControl.AcceptedConfigBuildsTable` | src/fan.rs:26-38 | a config that validation accepts, with a configured `state.max`, always builds (once the sensor scan succeeds) a non-empty table with strictly increasing states and breakpoints |
| `FanControl.UnitTestTable` | src/fan.rs:292-339 | for 40..80 °C and states 0..5 the table is `(1,40) (2,50) (3,60) (4,70) (5,80)`, and 60 °C selects state 3 |
| `FanAsWritten.CalculateSlotsAsWritten` | src/fan.rs:68-85 | the table as the f64 code computes it: a single slot gets a NaN breakpoint. From two slots on every breakpoint is finite |
| `FanAsWritten.ChooseSpeedAsWritten` | src/fan.rs:331-337 | the selection over f64 breakpoints: `state.min` when no breakpoint compares `<= t`, else the state of the last slot that does |
| `FanAsWritten.AsWrittenAgreesFromTwoSlots` | src/fan.rs:69-84 | from two slots on, the code's table is exactly `CalculateSlots` |
| `FanAsWritten.OneSlotNeverSelected` | src/fan.rs:69-84 | as written, a one-slot table selects `state.min` at every temperature |
| `FanAsWritten.OneSlotCorrected` | src/fan.rs:69-84 | with the corrected table a one-slot fan selects `state.min + 1` from `threshold.min` upward |
| `FanAsWritten.TwoStateFanCounterexample` | src/fan.rs:26-38 | states 0..1 over 40..80 °C on a device with max state 1 pass validation. As written, 60 °C, inside the range, selects state 0. Corrected, it selects 1 |
| `Controller.Step` | src/checker.rs:42-98 | `is_init` is set exactly when a write is attempted and never reset. An abort changes nothing and writes nothing. The cached state is never written again. A write needs a fresh temperature and both handles. A successful write is cached, and a failed one drops the fan handle. A write keeps the sensor handle the tick held or found. A handle held before the tick is never swapped for another device |
| `Controller.Checker.constructor` | src/checker.rs:22-40 | the fields are `is_init = false`, the fan built by `Fan::new` and the discovered sensor, and the invariant holds |
| `Controller.Checker.AdjustSpeed` | src/checker.rs:42-98 | the new fields, the written value and the abort equal `Step` of the old fields. It keeps the invariant that every fan handle is one `new_fan_device` built, with a selectable cached state |
| `Controller.StepKeepsValid` | src/checker.rs:92-97 | every tick keeps that invariant |
| `Controller.WrittenStateInRange` | src/checker.rs:74-76 | a written state is `state.min`, or lies above it, at most the effective ceiling and at most the device's `max_state` |
| `Controller.WriteRule` | src/checker.rs:74-97 | once the tick holds a fan handle (kept or just built) and a sensor handle (kept or just found) and the temperature reads: nothing aborts, a write is attempted iff the cached state differs from the selected one, the value written is the selected state, `is_init` is then true, and the sensor handle stays |
| `Controller.CachedStateSkips` | src/checker.rs:80-83 | a cached state equal to the selected one means no write; the only change is keeping the handles the tick acquired, so with both handles held nothing changes at all |
| `Controller.NoFanIsNoOp` | src/checker.rs:43-51 | no fan and none discovered: nothing changes and nothing is written |
| `Controller.NoSensorKeepsFan` | src/checker.rs:53-61 | no sensor and none discovered: no write, `is_init` kept, and the fan handle (possibly just built) is kept |
| `Controller.FailedReadDropsSensor` | src/checker.rs:63-71 | a failed temperature read, with the sensor held or just found, drops only the sensor handle: the fan handle (kept or just built) stays, `is_init` is untouched and nothing is written |
| `Controller.SecondTickIsNoOp` | src/checker.rs:80-93 | after a successful write, a tick reading the same temperature writes nothing and changes nothing |
| `Controller.FailedWriteIsRetried` | src/checker.rs:94-97 | after a failed write the fan handle is gone. The next tick rediscovers the device, rebuilds the handle from scratch and writes the same state again. Once that write succeeds the handle is back with the state cached |
| `LegacyController.LegacyStep` | src/cheker.rs:40-129 | `is_init` is never reset, and is set only on a tick that parsed `cur_state` and read a temperature. A write needs a parsed speed that differs from the desired state, or a first run, and never repeats the cached state. Success caches the state, and failure drops the fan. An unreadable `cur_state` drops the fan and stops before the sensor. The sensor handle is never dropped, and a write keeps the one the tick held or found. An abort changes nothing |
| `LegacyController.LegacyChecker.constructor` | src/cheker.rs:21-38 | same initial fields as the current revision |
| `LegacyController.LegacyChecker.AdjustSpeed` | src/cheker.rs:40-129 | the new fields, written value and abort equal `LegacyStep` of the old fields, and the invariant is kept |
| `LegacyController.LegacyStepKeepsValid` | src/cheker.rs:110-114 | every tick of this revision keeps the invariant |
| `LegacyController.LegacyWriteRule` | src/cheker.rs:104-123 | with a fan handle kept or just built and a sensor handle kept or just found, once past the cached-state check, a write of the desired state is attempted iff the speed read back differs or `is_init` is false. `is_init` is true afterwards, even after a failed write, and the sensor handle stays. When no write is needed (lines 116-118) the only change is keeping the acquired handles |
| `LegacyController.LegacyCachedStateSkips` | src/cheker.rs:98-103 | a cached state equal to the desired one means no write and `is_init` untouched; the only change is keeping the handles the tick acquired, so with both held nothing changes |
| `LegacyController.LegacyFailedReadRefreshesPath` | src/cheker.rs:75-92 | a failed temperature read keeps the sensor handle. Its path is replaced only when rediscovery finds one. Nothing is written |
| `LegacyController.LegacyNoFanIsNoOp` | src/cheker.rs:41-48 | no fan and none discovered: nothing changes and nothing is written |
| `LegacyController.LegacyRediscoveryWithoutSensorAborts` | src/cheker.rs:41-49 | a fan rediscovered while no thermal zone is readable makes `new_fan_device` panic (src/fan.rs:28): the tick aborts, changes nothing and writes nothing |
| `LegacyController.LegacyUnparsableIsNoOp` | src/cheker.rs:125-127 | an unparsable `cur_state` changes nothing and writes nothing |
| `Standalone.MainBreakpointFacts` | src/main.rs:52-55 | breakpoints start exactly at 45.0, reach exactly 65.0 at `max_state`, strictly increase and stay within 45..65 |
| `Standalone.SlotsFor` | src/main.rs:52-56 | for `max_state > 0` the table has `max_state + 1` entries and entry `x` has state `x + MIN_STATE`. It runs from 45.0 to 65.0 with strictly increasing states and breakpoints |
| `Standalone.GetTemperatureSlots` | src/main.rs:32-60 | empty exactly when no fan is found or `max_state` is 0 or unreadable (which reads as 0). Otherwise `SlotsFor(max_state)` |
| `Standalone.ChooseSlot` | src/main.rs:116-121 | the last slot whose breakpoint is `<= t`; when there is none, the first slot or `(MIN_STATE, LOWER_TEMP_THRESHOLD)` |
| `Standalone.MainSelection` | src/main.rs:116-121 | on the program's tables: state 0 below 45 °C, `max_state` at or above 65 °C, and monotone in the temperature |
| `Standalone.GetFanSpeed` | src/main.rs:78-84 | the parsed `cur_state`, or 0 when it cannot be read or parsed |
| `Standalone.AdjustSpeed` | src/main.rs:114-138 | with no fan found there is no write and the flag is unchanged. Otherwise it writes the selected state iff the speed read back (0 when unreadable) differs or `is_init` is false. A failed write panics and leaves the flag as it was. Otherwise the flag is true afterwards |
| `Standalone.GetCurrentTemp` | src/main.rs:91-112 | the result is at least 0.0 and at least every parsed reading / 1000. It is 0.0 or one of those readings |

## Left out

- Filesystem I/O is not modelled. This covers directory scans (`Fan::get_fan_device`, `Temp::get_temp_path`, main.rs `get_fan_device`), the `max_state` and `cur_state` reads and writes, and the sensor reads (`Temp::get_current_temp`, `Fan::get_current_temp`). Each is an oracle value passed to the tick.
- `Fan::get_temp_path` (src/fan.rs:45-66) is a directory scan. Only whether it succeeds is modelled, as the `sensorFound` part of a fan discovery; the string it returns and the `fan_path`/`temp_path` fields of src/fan.rs:12-17 are I/O glue. The fan handle is the record `(max_state, temp_slots, last_state)` that the controllers use.
- `Config::new`, `get_env`, `setup_logging`, main.rs `setup_logging` and `main` with its `loop`/`thread::sleep`: environment, terminal and scheduling. `sleep_time` is carried in `Config` but unused.
- Logging macros are left out, and so is the mock filesystem of the unit tests (src/fan.rs:143-185).
- src/lib.rs holds only module declarations and path constants. src/temp.rs contributes only the `Temp { path }` record.
- IEEE-754 behaviour is not modelled: temperatures are exact reals. NaN is modelled only in `FanAsWritten`. The float parse of sensor text and the NaN handling of `f64::max` are left out.
- `FanControl.CalculateSlots`: for zero slots the code computes `num_slots - 1` in u32. That panics with overflow checks on and wraps otherwise. With wrapping the table is empty, and the model returns that empty table.
- `FanControl.GetTemperatureSlots`: when `state.min` exceeds a non-zero effective max, the u32 subtraction at src/fan.rs:69 fails. The model reports this as an abort rather than reproducing a wrapped slot count.
- `Controller.Checker.constructor` and `LegacyController.LegacyChecker.constructor` require that building a discovered fan does not panic. In the source that panic ends the process before a checker exists.
- checker.rs calls a two-value `Fan::get_fan_device` and a three-argument `Fan::new_fan_device` whose bodies are not part of this model. Both controllers use the `new_fan_device` of src/fan.rs:26-38 with a discovery oracle, including its thermal-zone panic; a discovery whose `sensorFound` is true stands for a revision that does not scan.
- `Fan::choose_speed` is not part of this model. It is modelled as the selection rule of src/fan.rs:331-337, with no added clamps.

## Findings

| source | as written | input that shows it | evidently intended | confidence | as-written member | corrected member |
|---|---|---|---|---|---|---|
| src/fan.rs:69-84 | with exactly one slot the step is `(max - min) / 0.0`, and the only breakpoint `threshold.min + 0.0 * step` is NaN. No temperature compares `<=` NaN, so selection always falls back to `state.min` | `state = {min: 0, max: Some(1)}`, `threshold = 40..80`, device `max_state` 1. Validation accepts it, yet at 60 °C, inside the configured range, the state chosen is 0 | the one state above `state.min` applies from `threshold.min` upward | high; not executed | `FanAsWritten.TwoStateFanCounterexample` | `FanAsWritten.OneSlotCorrected` |

=== FILE: configuration.dfy ===
/**
 * The controller's configuration record and its one-time validation
 * (src/config.rs). Loading the record from environment variables and the
 * logging setup are I/O and are not part of this model.
 */
module Configuration {
  import opened Wrappers

  /** Temperature range in degrees Celsius over which the fan ramps up. */
  datatype Threshold = Threshold(min: real, max: real)

  /** Cooling-state range; `max` is optional and defaults to the device's own maximum. */
  datatype State = State(min: u32, max: Option<u32>) {
    /** The ceiling actually used: the configured maximum, else the device's. */
    function EffectiveMax(deviceMax: u32): u32 {
      max.GetOr(deviceMax)
    }
  }

  datatype Config = Config(threshold: Threshold, state: State, sleepTime: nat)

  /** The three reasons `check_config` aborts the process. */
  datatype ConfigError =
    | ThresholdOrder   // threshold.min >= threshold.max
    | StateOrder       // state.min >= configured state.max
    | ExceedsDevice    // configured state.max above the fan's max_state

  /**
   * What a valid configuration is, stated declaratively: an ordered
   * temperature range and, when a state ceiling is configured, a non-empty
   * state range that fits the detected fan (if any).
   */
  predicate Accepted(cfg: Config, fanMaxState: Option<u32>) {
    && cfg.threshold.min < cfg.threshold.max
    && (cfg.state.max.Some? ==>
          && cfg.state.min < cfg.state.max.value
          && (fanMaxState.Some? ==> cfg.state.max.value <= fanMaxState.value))
  }

  /**
   * `Config::check_config`: the bound checks in source order. The fan handle
   * is represented by the only field the check reads from it, `max_state`;
   * `None` is "no fan detected", for which the device bound is skipped with a
   * warning. A panic is the `Fail` outcome with its tag.
   */
  function CheckConfig(cfg: Config, fanMaxState: Option<u32>): (r: Outcome<ConfigError>)
    ensures r.Pass? <==> Accepted(cfg, fanMaxState)
    // the threshold check comes before any state check
    ensures cfg.threshold.min >= cfg.threshold.max ==> r == Fail(ThresholdOrder)
    ensures r == Fail(ThresholdOrder) ==> cfg.threshold.min >= cfg.threshold.max
    // equality of state.min and state.max is rejected too
    ensures r == Fail(StateOrder) <==>
              cfg.threshold.min < cfg.threshold.max && cfg.state.max.Some?
              && cfg.state.min >= cfg.state.max.value
    // only a detected fan can trigger the device bound, and max == max_state passes
    ensures r == Fail(ExceedsDevice) ==>
              fanMaxState.Some? && cfg.state.max.Some? && cfg.state.max.value > fanMaxState.value
    // without a configured ceiling no state bound is checked at all
    ensures cfg.state.max.None? ==> (r.Pass? <==> cfg.threshold.min < cfg.threshold.max)
  {
    if cfg.threshold.min >= cfg.threshold.max then Fail(ThresholdOrder)
    else match cfg.state.max
      case None => Pass
      case Some(max) =>
        if cfg.state.min >= max then Fail(StateOrder)
        else match fanMaxState
          case Some(deviceMax) => if max > deviceMax then Fail(ExceedsDevice) else Pass
          case None => Pass
  }

  /** With no fan detected the result never depends on a device bound. */
  lemma NoFanSkipsDeviceBound(cfg: Config, deviceMax: u32)
    requires CheckConfig(cfg, Some(deviceMax)) != Fail(ExceedsDevice)
    ensures CheckConfig(cfg, None) == CheckConfig(cfg, Some(deviceMax))
  {
  }
}

=== FILE: controller.dfy ===
/**
 * The current controller (src/checker.rs): a `Checker` owning the
 * configuration, the optional fan and sensor handles and the `is_init` flag,
 * and its per-tick `adjust_speed`. The tick rediscovers missing devices,
 * drops a handle whose I/O fails, and trusts the cached last state to skip
 * redundant writes. Every filesystem interaction of one tick is an oracle
 * outcome passed in with `Oracles`.
 */
module Controller {
  import opened Wrappers
  import opened Configuration
  import opened Thermal
  import opened FanControl

  /** The mutable fields of a `Checker`. */
  datatype CheckerState = CheckerState(isInit: bool, fanDevice: Option<Fan>, tempDevice: Option<Temp>)

  /**
   * What the filesystem answers during one tick: the fan discovery, the
   * sensor discovery (a path or nothing), the temperature read from the
   * sensor (degrees, or a read/parse failure) and whether the write of the
   * control file succeeds. Each is consulted only when the tick gets there.
   */
  datatype Oracles = Oracles(fanProbe: Discovery, tempProbe: Option<Path>, tempRead: Option<real>, writeOk: bool)

  /**
   * The state after a tick, the state value written to the control file (if
   * a write was attempted), and the reason the process aborted (if
   * constructing a rediscovered fan panicked; the state is then left as it was).
   */
  datatype TickResult = TickResult(next: CheckerState, written: Option<u32>, abort: Option<FanError>)

  /** Every fan handle the checker holds is one `new_fan_device` built, and its cached state is selectable. */
  predicate ValidState(cfg: Config, s: CheckerState) {
    s.fanDevice.Some? ==>
      && Built(cfg, s.fanDevice.value)
      && (s.fanDevice.value.lastState.Some? ==>
            Selectable(cfg, s.fanDevice.value, s.fanDevice.value.lastState.value))
  }

  /**
   * The fan handle a tick works with once past discovery: the one held, or
   * the one built from a discovered device (none when nothing is found or
   * building it panics).
   */
  function HeldOrBuiltFan(cfg: Config, s: CheckerState, probe: Discovery): Option<Fan> {
    if s.fanDevice.Some? then s.fanDevice
    else match probe
      case Missing => None
      case Found(read, sensorFound) =>
        match NewFanDevice(cfg, read, sensorFound)
        case Ok(fan) => Some(fan)
        case Err(_) => None
  }

  /** The sensor handle a tick works with once past discovery: the one held, or the one found. */
  function HeldOrFoundSensor(s: CheckerState, tempProbe: Option<Path>): Option<Temp> {
    if s.tempDevice.Some? then s.tempDevice
    else if tempProbe.Some? then Some(Temp(tempProbe.value))
    else None
  }

  /** One `adjust_speed` tick, as a function of the old state and the oracle outcomes. */
  function Step(cfg: Config, s: CheckerState, o: Oracles): (r: TickResult)
    // a tick that aborts or writes nothing never touches `is_init`, and nothing resets it
    ensures r.next.isInit == (s.isInit || r.written.Some?)
    ensures r.abort.Some? ==> r.next == s && r.written.None?
    // the hysteresis guard: the cached state is never written again
    ensures r.written.Some? ==> s.fanDevice.None? || s.fanDevice.value.lastState != r.written
    // a write happens only with a fresh temperature in hand and both handles present
    ensures r.written.Some? ==> o.tempRead.Some? && r.next.tempDevice.Some?
    // a write leaves the sensor handle the tick worked with in place
    ensures r.written.Some? ==> r.next.tempDevice == HeldOrFoundSensor(s, o.tempProbe)
    // a successful write is cached; a failed one drops the fan handle
    ensures r.written.Some? ==>
              if o.writeOk then r.next.fanDevice.Some? && r.next.fanDevice.value.lastState == r.written
              else r.next.fanDevice.None?
    // a handle present before the tick is never replaced by a different device
    ensures s.fanDevice.Some? && r.next.fanDevice.Some? ==>
              r.next.fanDevice.value.(lastState := None) == s.fanDevice.value.(lastState := None)
  {
    var fanOrAbort :=
      if s.fanDevice.Some? then Ok(s.fanDevice)
      else if o.fanProbe.Missing? then Ok(None)
      else match NewFanDevice(cfg, o.fanProbe.maxStateRead, o.fanProbe.sensorFound)
        case Ok(f) => Ok(Some(f))
        case Err(e) => Err(e);
    if fanOrAbort.Err? then TickResult(s, None, Some(fanOrAbort.error))
    else if fanOrAbort.value.None? then TickResult(s, None, None)
    else
      var fan := fanOrAbort.value.value;
      var s1 := s.(fanDevice := Some(fan));
      if s.tempDevice.None? && o.tempProbe.None? then TickResult(s1, None, None)
      else
        var s2 := if s.tempDevice.Some? then s1 else s1.(tempDevice := Some(Temp(o.tempProbe.value)));
        if o.tempRead.None? then TickResult(s2.(tempDevice := None), None, None)
        else
          var desired := ChooseSpeed(fan, cfg, o.tempRead.value);
          if fan.lastState == Some(desired) then TickResult(s2, None, None)
          else if o.writeOk then
            TickResult(s2.(isInit := true, fanDevice := Some(fan.(lastState := Some(desired)))), Some(desired), None)
          else
            TickResult(s2.(isInit := true, fanDevice := None), Some(desired), None)
  }

  class Checker {
    var isInit: bool
    const config: Config
    var fanDevice: Option<Fan>
    var tempDevice: Option<Temp>

    function State(): CheckerState
      reads this
    {
      CheckerState(isInit, fanDevice, tempDevice)
    }

    predicate Valid()
      reads this
    {
      ValidState(config, State())
    }

    /**
     * `Checker::new`: the sensor discovery outcome, the configuration and the
     * fan discovery outcome (`Fan::new`). A panic while building the fan ends
     * the process before any checker exists, so it is excluded here.
     */
    constructor (config: Config, tempProbe: Option<Path>, fanProbe: Discovery)
      requires FanNew(config, fanProbe).Ok?
      ensures Valid()
      ensures this.config == config
      ensures State() == CheckerState(false, FanNew(config, fanProbe).value,
                                      if tempProbe.Some? then Some(Temp(tempProbe.value)) else None)
    {
      this.isInit := false;
      this.config := config;
      this.fanDevice := FanNew(config, fanProbe).value;
      this.tempDevice := if tempProbe.Some? then Some(Temp(tempProbe.value)) else None;
    }

    /** `Checker::adjust_speed`. */
    method AdjustSpeed(o: Oracles) returns (written: Option<u32>, abort: Option<FanError>)
      requires Valid()
      modifies this
      ensures Valid()
      ensures TickResult(State(), written, abort) == Step(config, old(State()), o)
    {
      StepKeepsValid(config, State(), o);
      written, abort := None, None;
      if fanDevice.None? {
        match o.fanProbe
        case Missing =>
          return;
        case Found(read, sensorFound) =>
          var built := NewFanDevice(config, read, sensorFound);
          if built.Err? {
            abort := Some(built.error);
            return;
          }
          fanDevice := Some(built.value);
      }

      if tempDevice.None? {
        if o.tempProbe.None? {
          return;
        }
        tempDevice := Some(Temp(o.tempProbe.value));
      }

      if o.tempRead.None? {
        tempDevice := None;
        return;
      }
      var fan := fanDevice.value;
      var desired := ChooseSpeed(fan, config, o.tempRead.value);

      if fan.lastState == Some(desired) {
        return;
      }

      if !isInit {
        isInit := true;
      }

      written := Some(desired);
      if o.writeOk {
        fanDevice := Some(fan.(lastState := Some(desired)));
      } else {
        fanDevice := None;
      }
    }
  }

  /** Every tick keeps the checker's invariant. */
  lemma StepKeepsValid(cfg: Config, s: CheckerState, o: Oracles)
    requires ValidState(cfg, s)
    ensures ValidState(cfg, Step(cfg, s, o).next)
  {
    var r := Step(cfg, s, o);
    if r.next.fanDevice.Some? && r.abort.None? && r.next.fanDevice != s.fanDevice {
      // the handle was rebuilt this tick, or its cached state was just written
      var fan := if s.fanDevice.Some? then s.fanDevice.value else NewFanDevice(cfg, o.fanProbe.maxStateRead, o.fanProbe.sensorFound).value;
      assert Built(cfg, fan);
      if r.written.Some? {
        ChooseSpeedInRange(cfg, fan, o.tempRead.value);
        assert r.next.fanDevice == Some(fan.(lastState := r.written));
      } else {
        assert r.next.fanDevice == Some(fan) && fan.lastState.None?;
      }
    }
  }

  /**
   * The controller never writes a state above the device's `max_state` or
   * the configured ceiling: whatever it writes is `state.min` or a state
   * between them.
   */
  lemma WrittenStateInRange(cfg: Config, s: CheckerState, o: Oracles)
    requires ValidState(cfg, s)
    requires Step(cfg, s, o).written.Some?
    ensures var v := Step(cfg, s, o).written.value;
            var fan := if s.fanDevice.Some? then s.fanDevice.value else NewFanDevice(cfg, o.fanProbe.maxStateRead, o.fanProbe.sensorFound).value;
            Selectable(cfg, fan, v)
  {
    var fan := if s.fanDevice.Some? then s.fanDevice.value else NewFanDevice(cfg, o.fanProbe.maxStateRead, o.fanProbe.sensorFound).value;
    ChooseSpeedInRange(cfg, fan, o.tempRead.value);
  }

  /**
   * Once the tick holds a fan handle (kept or just built) and a sensor handle
   * (kept or just found) and the temperature reads, a write is attempted
   * exactly when the cached state differs from the desired one; the value
   * written is the desired state, nothing aborts, `is_init` is true
   * afterwards and the sensor handle stays.
   */
  lemma WriteRule(cfg: Config, s: CheckerState, o: Oracles)
    requires HeldOrBuiltFan(cfg, s, o.fanProbe).Some? && HeldOrFoundSensor(s, o.tempProbe).Some?
    requires o.tempRead.Some?
    ensures var r := Step(cfg, s, o);
            var fan := HeldOrBuiltFan(cfg, s, o.fanProbe).value;
            var desired := ChooseSpeed(fan, cfg, o.tempRead.value);
            && r.abort.None?
            && (r.written.Some? <==> fan.lastState != Some(desired))
            && (r.written.Some? ==> r.written.value == desired && r.next.isInit)
            && r.next.tempDevice == HeldOrFoundSensor(s, o.tempProbe)
  {
  }

  /**
   * The cached state equals the desired one: nothing is written, and the
   * only change is keeping the handles the tick acquired.
   */
  lemma CachedStateSkips(cfg: Config, s: CheckerState, o: Oracles)
    requires HeldOrBuiltFan(cfg, s, o.fanProbe).Some? && HeldOrFoundSensor(s, o.tempProbe).Some?
    requires o.tempRead.Some?
    requires var fan := HeldOrBuiltFan(cfg, s, o.fanProbe).value;
             fan.lastState == Some(ChooseSpeed(fan, cfg, o.tempRead.value))
    ensures Step(cfg, s, o) ==
              TickResult(s.(fanDevice := HeldOrBuiltFan(cfg, s, o.fanProbe),
                            tempDevice := HeldOrFoundSensor(s, o.tempProbe)), None, None)
    ensures s.fanDevice.Some? && s.tempDevice.Some? ==> Step(cfg, s, o) == TickResult(s, None, None)
  {
  }

  /** No fan and none discovered: the tick changes nothing and writes nothing. */
  lemma NoFanIsNoOp(cfg: Config, s: CheckerState, o: Oracles)
    requires s.fanDevice.None? && o.fanProbe.Missing?
    ensures Step(cfg, s, o) == TickResult(s, None, None)
  {
  }

  /** No sensor and none discovered: a newly built fan handle is kept, nothing else changes, nothing is written. */
  lemma NoSensorKeepsFan(cfg: Config, s: CheckerState, o: Oracles)
    requires s.tempDevice.None? && o.tempProbe.None?
    requires Step(cfg, s, o).abort.None?
    ensures var r := Step(cfg, s, o);
            && r.written.None? && r.next.isInit == s.isInit && r.next.tempDevice.None?
            && (s.fanDevice.Some? ==> r.next.fanDevice == s.fanDevice)
            && (s.fanDevice.None? && o.fanProbe.Found? ==>
                  r.next.fanDevice == Some(NewFanDevice(cfg, o.fanProbe.maxStateRead, o.fanProbe.sensorFound).value))
  {
  }

  /**
   * A failed temperature read drops only the sensor handle: the fan handle
   * the tick worked with (kept or just built) stays, `is_init` is untouched
   * and nothing is written.
   */
  lemma FailedReadDropsSensor(cfg: Config, s: CheckerState, o: Oracles)
    requires HeldOrBuiltFan(cfg, s, o.fanProbe).Some? && HeldOrFoundSensor(s, o.tempProbe).Some?
    requires o.tempRead.None?
    ensures var r := Step(cfg, s, o);
            && r.abort.None? && r.written.None?
            && r.next == s.(fanDevice := HeldOrBuiltFan(cfg, s, o.fanProbe), tempDevice := None)
    ensures s.fanDevice.Some? ==> Step(cfg, s, o).next.fanDevice == s.fanDevice
  {
  }

  /**
   * Idempotence: once a tick has written a state successfully, a second tick
   * that reads the same temperature writes nothing and changes nothing, so
   * the two ticks together write at most once.
   */
  lemma SecondTickIsNoOp(cfg: Config, s: CheckerState, o1: Oracles, o2: Oracles)
    requires o1.writeOk && o1.tempRead.Some?
    requires Step(cfg, s, o1).next.fanDevice.Some? && Step(cfg, s, o1).next.tempDevice.Some?
    requires o2.tempRead == o1.tempRead
    ensures var r1 := Step(cfg, s, o1);
            Step(cfg, r1.next, o2) == TickResult(r1.next, None, None)
  {
    var r1 := Step(cfg, s, o1);
    var fan := r1.next.fanDevice.value;
    assert r1.abort.None?;
    var fan0 := if s.fanDevice.Some? then s.fanDevice.value else NewFanDevice(cfg, o1.fanProbe.maxStateRead, o1.fanProbe.sensorFound).value;
    assert fan.tempSlots == fan0.tempSlots;
    assert ChooseSpeed(fan, cfg, o1.tempRead.value) == ChooseSpeed(fan0, cfg, o1.tempRead.value);
  }

  /**
   * Recovery: after a failed write the fan handle is gone; the next tick that
   * rediscovers the same device rebuilds the handle (and its table) from
   * scratch and, reading the same temperature, writes the same state again;
   * once that write succeeds the handle is the old one with the state cached.
   */
  lemma FailedWriteIsRetried(cfg: Config, s: CheckerState, o1: Oracles, o2: Oracles)
    requires ValidState(cfg, s) && s.fanDevice.Some?
    requires Step(cfg, s, o1).written.Some? && !o1.writeOk
    requires o2.fanProbe == Found(Some(s.fanDevice.value.maxState), true)
    requires o2.tempRead == o1.tempRead
    ensures var r1 := Step(cfg, s, o1);
            var r2 := Step(cfg, r1.next, o2);
            && r1.next.fanDevice.None?
            && r2.written == r1.written
            && (o2.writeOk ==> r2.next.fanDevice == Some(s.fanDevice.value.(lastState := r1.written)))
  {
    var fan := s.fanDevice.value;
    var rebuilt := fan.(lastState := None);
    assert NewFanDevice(cfg, Some(fan.maxState), true) == Ok(rebuilt);
    var r1 := Step(cfg, s, o1);
    assert r1.next.tempDevice.Some?;
    assert ChooseSpeed(rebuilt, cfg, o1.tempRead.value) == ChooseSpeed(fan, cfg, o1.tempRead.value);
  }
}

=== FILE: fan_as_written.dfy ===
/**
 * `calculate_slots` (src/fan.rs) exactly as written, for the one input where
 * it differs from FanControl.CalculateSlots: a table of a single slot. The
 * source divides by `(num_slots - 1) as f64`, i.e. by 0.0, so the step is
 * infinite (or NaN when the thresholds are equal) and the only breakpoint,
 * `threshold.min + 0.0 * step`, is NaN. Every `<=` against NaN is false, so
 * the selection never picks that slot.
 */
module FanAsWritten {
  import opened Wrappers
  import opened Configuration
  import opened FanControl

  /** An f64 breakpoint as the source computes it: a finite value or NaN. */
  datatype RawBreakpoint = Finite(value: real) | NaN

  datatype RawSlot = RawSlot(state: u32, breakpoint: RawBreakpoint)

  /** f64 `<=` against a temperature: false whenever the breakpoint is NaN. */
  predicate AtOrBelow(b: RawBreakpoint, t: real) {
    b.Finite? && b.value <= t
  }

  /**
   * The table as the source computes it. `num_slots - 1` is a u32
   * subtraction, so at least one slot is needed.
   */
  function CalculateSlotsAsWritten(cfg: Config, maxState: u32): (slots: seq<RawSlot>)
    requires cfg.state.min < cfg.state.EffectiveMax(maxState)
    ensures |slots| == cfg.state.EffectiveMax(maxState) - cfg.state.min
    ensures forall i :: 0 <= i < |slots| ==> slots[i].state == cfg.state.min + 1 + i
    ensures |slots| == 1 ==> slots[0].breakpoint == NaN
    ensures |slots| >= 2 ==> forall i :: 0 <= i < |slots| ==> slots[i].breakpoint.Finite?
  {
    var n := cfg.state.EffectiveMax(maxState) - cfg.state.min;
    if n == 1 then
      [RawSlot(cfg.state.min + 1, NaN)]
    else
      seq(n, i requires 0 <= i < n => RawSlot(cfg.state.min + 1 + i, Finite(Breakpoint(cfg, n, i))))
  }

  /** The selection of src/fan.rs:331-337 over f64 breakpoints. */
  function ChooseSpeedAsWritten(slots: seq<RawSlot>, cfg: Config, t: real): (s: u32)
    ensures (forall j :: 0 <= j < |slots| ==> !AtOrBelow(slots[j].breakpoint, t)) ==> s == cfg.state.min
    ensures (exists j :: 0 <= j < |slots| && AtOrBelow(slots[j].breakpoint, t)) ==>
              exists k :: 0 <= k < |slots| && AtOrBelow(slots[k].breakpoint, t) && s == slots[k].state
                          && forall j :: k < j < |slots| ==> !AtOrBelow(slots[j].breakpoint, t)
  {
    if |slots| == 0 then cfg.state.min
    else if AtOrBelow(slots[|slots| - 1].breakpoint, t) then slots[|slots| - 1].state
    else ChooseSpeedAsWritten(slots[..|slots| - 1], cfg, t)
  }

  /** From two slots on, the source's table is the model's table. */
  lemma AsWrittenAgreesFromTwoSlots(cfg: Config, maxState: u32)
    requires cfg.state.min + 2 <= cfg.state.EffectiveMax(maxState)
    ensures var raw := CalculateSlotsAsWritten(cfg, maxState);
            var slots := CalculateSlots(cfg, maxState);
            |raw| == |slots|
            && forall i :: 0 <= i < |raw| ==>
                 raw[i] == RawSlot(slots[i].state, Finite(slots[i].breakpoint))
  {
  }

  /** As written, a one-slot table never leaves `state.min`, however hot it gets. */
  lemma OneSlotNeverSelected(cfg: Config, maxState: u32, t: real)
    requires cfg.state.EffectiveMax(maxState) == cfg.state.min + 1
    ensures ChooseSpeedAsWritten(CalculateSlotsAsWritten(cfg, maxState), cfg, t) == cfg.state.min
  {
    var raw := CalculateSlotsAsWritten(cfg, maxState);
    assert !AtOrBelow(raw[0].breakpoint, t);
  }

  /** With the corrected table, the single state above `state.min` starts at `threshold.min`. */
  lemma OneSlotCorrected(cfg: Config, maxState: u32, t: real)
    requires cfg.state.EffectiveMax(maxState) == cfg.state.min + 1
    requires t >= cfg.threshold.min
    ensures ChooseSpeed(Fan(maxState, CalculateSlots(cfg, maxState), None), cfg, t) == cfg.state.min + 1
  {
    var slots := CalculateSlots(cfg, maxState);
    assert LastAtOrBelow(slots, t) == Some(0);
  }

  /**
   * The concrete input: states 0..1 over 40..80 degrees on a device with
   * `max_state` 1. Validation accepts it, yet as written the fan stays at
   * state 0 at 60 degrees, inside the configured range; the corrected table
   * selects state 1 there.
   */
  lemma TwoStateFanCounterexample()
    ensures var cfg := Config(Threshold(40.0, 80.0), State(0, Some(1)), 5);
            && CheckConfig(cfg, Some(1)) == Pass
            && ChooseSpeedAsWritten(CalculateSlotsAsWritten(cfg, 1), cfg, 60.0) == 0
            && NewFanDevice(cfg, Some(1), true).Ok?
            && ChooseSpeed(NewFanDevice(cfg, Some(1), true).value, cfg, 60.0) == 1
  {
    var cfg := Config(Threshold(40.0, 80.0), State(0, Some(1)), 5);
    OneSlotNeverSelected(cfg, 1, 60.0);
    OneSlotCorrected(cfg, 1, 60.0);
    assert NewFanDevice(cfg, Some(1), true) == Ok(Fan(1, CalculateSlots(cfg, 1), None));
  }
}

=== FILE: fan_control.dfy ===
/**
 * The fan handle and its temperature-to-state lookup table (src/fan.rs):
 * building the table from the configuration, the empty-table guard, the
 * selection rule, and constructing a handle for a discovered device.
 * Directory scans and sysfs reads are oracles: a discovered device arrives as
 * the outcome of reading its `max_state` file and of the thermal-zone scan
 * that building its handle performs.
 */
module FanControl {
  import opened Wrappers
  import opened Configuration
  import opened RealArith

  /** One table entry: from `breakpoint` degrees upwards, `state` applies. */
  datatype Slot = Slot(state: u32, breakpoint: real)

  /**
   * The fan handle as the controllers use it: the device's `max_state`, the
   * table built for it and the state most recently written (`None` until the
   * first successful write). The control-file path is held by the I/O oracles.
   */
  datatype Fan = Fan(maxState: u32, tempSlots: seq<Slot>, lastState: Option<u32>)

  /**
   * Outcome of one fan discovery: nothing found, or a device whose `max_state`
   * file read as given, together with whether the thermal-zone scan that
   * building its handle performs found a readable sensor.
   */
  datatype Discovery = Missing | Found(maxStateRead: Option<u32>, sensorFound: bool)

  /** Why building a fan handle aborts the process. */
  datatype FanError =
    | MaxStateUnreadable           // `get_device_max_state(..).unwrap()`
    | NoThermalZone                // `get_temp_path().unwrap()`
    | StateUnderflow               // `state.max.unwrap_or(max_state) - state.min` below zero in u32
    | InvalidConfig(e: ConfigError)

  /** States strictly increase along the table. */
  predicate StatesIncreasing(slots: seq<Slot>) {
    forall i, j :: 0 <= i < j < |slots| ==> slots[i].state < slots[j].state
  }

  /** Breakpoints strictly increase along the table. */
  predicate BreakpointsIncreasing(slots: seq<Slot>) {
    forall i, j :: 0 <= i < j < |slots| ==> slots[i].breakpoint < slots[j].breakpoint
  }

  /** Distance between consecutive breakpoints when the table has two or more slots. */
  function SlotStep(cfg: Config, numSlots: nat): real
    requires numSlots >= 2
  {
    (cfg.threshold.max - cfg.threshold.min) / (numSlots - 1) as real
  }

  /** Breakpoint of entry `i` in a table of `n >= 2` slots: `threshold.min + i * step`. */
  function Breakpoint(cfg: Config, n: nat, i: nat): real
    requires n >= 2
  {
    cfg.threshold.min + i as real * SlotStep(cfg, n)
  }

  /**
   * The breakpoints start exactly at `threshold.min`, end exactly at
   * `threshold.max`, are one step apart and, for an ordered temperature
   * range, strictly increase and stay inside it.
   */
  lemma BreakpointFacts(cfg: Config, n: nat)
    requires n >= 2
    ensures Breakpoint(cfg, n, 0) == cfg.threshold.min
    ensures Breakpoint(cfg, n, n - 1) == cfg.threshold.max
    ensures forall i: nat :: Breakpoint(cfg, n, i + 1) - Breakpoint(cfg, n, i) == SlotStep(cfg, n)
    ensures cfg.threshold.min < cfg.threshold.max ==>
              forall i: nat, j: nat :: i < j ==> Breakpoint(cfg, n, i) < Breakpoint(cfg, n, j)
    ensures cfg.threshold.min < cfg.threshold.max ==>
              forall i: nat :: i < n ==> cfg.threshold.min <= Breakpoint(cfg, n, i) <= cfg.threshold.max
  {
    var d := cfg.threshold.max - cfg.threshold.min;
    var k := (n - 1) as real;
    var step := SlotStep(cfg, n);
    DivideThenMultiply(d, k);
    forall i: nat ensures Breakpoint(cfg, n, i + 1) - Breakpoint(cfg, n, i) == step {
      DifferenceOfMultiples(i as real, (i + 1) as real, step);
    }
    if cfg.threshold.min < cfg.threshold.max {
      QuotientPositive(d, k);
      forall i: nat, j: nat | i < j ensures Breakpoint(cfg, n, i) < Breakpoint(cfg, n, j) {
        DifferenceOfMultiples(i as real, j as real, step);
        ProductPositive(j as real - i as real, step);
      }
      forall i: nat | i < n
        ensures cfg.threshold.min <= Breakpoint(cfg, n, i) <= cfg.threshold.max
      {
        ProductNonNegative(i as real, step);
        DifferenceOfMultiples(i as real, k, step);
        ProductNonNegative(k - i as real, step);
      }
    }
  }

  /**
   * `calculate_slots`: `num_slots = effective max - state.min` entries, entry
   * `i` being `(state.min + 1 + i, threshold.min + i * step)`. The source
   * subtracts in u32, so the state range must not be inverted. For a single
   * slot this is the corrected rule (see FanAsWritten): the one state above
   * `state.min` starts at `threshold.min`. With no slot the table is empty.
   */
  function CalculateSlots(cfg: Config, maxState: u32): (slots: seq<Slot>)
    requires cfg.state.min <= cfg.state.EffectiveMax(maxState)
    ensures |slots| == cfg.state.EffectiveMax(maxState) - cfg.state.min
    ensures forall i :: 0 <= i < |slots| ==> slots[i].state == cfg.state.min + 1 + i
    ensures |slots| >= 1 ==> slots[0].breakpoint == cfg.threshold.min
    ensures |slots| >= 2 ==> slots[|slots| - 1].breakpoint == cfg.threshold.max
    ensures |slots| >= 2 ==> forall i :: 0 <= i < |slots| - 1 ==>
              slots[i + 1].breakpoint - slots[i].breakpoint == SlotStep(cfg, |slots|)
    ensures StatesIncreasing(slots)
    ensures cfg.threshold.min < cfg.threshold.max ==> BreakpointsIncreasing(slots)
    ensures cfg.threshold.min < cfg.threshold.max ==>
              forall i :: 0 <= i < |slots| ==>
                cfg.threshold.min <= slots[i].breakpoint <= cfg.threshold.max
  {
    var n := cfg.state.EffectiveMax(maxState) - cfg.state.min;
    if n < 2 then
      seq(n, i requires 0 <= i < n => Slot(cfg.state.min + 1 + i, cfg.threshold.min))
    else
      BreakpointFacts(cfg, n);
      seq(n, i requires 0 <= i < n => Slot(cfg.state.min + 1 + i, Breakpoint(cfg, n, i)))
  }

  /**
   * `get_temperature_slots`: the empty table when the effective maximum is 0,
   * otherwise `calculate_slots`, whose u32 subtraction fails when `state.min`
   * exceeds the effective maximum.
   */
  function GetTemperatureSlots(cfg: Config, maxState: u32): (r: Result<seq<Slot>, FanError>)
    ensures r.Err? <==> 0 < cfg.state.EffectiveMax(maxState) < cfg.state.min
    ensures r.Err? ==> r.error == StateUnderflow
    ensures cfg.state.EffectiveMax(maxState) == 0 ==> r == Ok([])
    ensures r.Ok? && cfg.state.EffectiveMax(maxState) > 0 ==>
              r.value == CalculateSlots(cfg, cfg.state.EffectiveMax(maxState))
  {
    var eff := cfg.state.EffectiveMax(maxState);
    if eff == 0 then Ok([])
    else if cfg.state.min > eff then Err(StateUnderflow)
    else Ok(CalculateSlots(cfg, eff))
  }

  /** Slot `k` is the last one whose breakpoint is at or below `t`. */
  predicate IsLastAtOrBelow(slots: seq<Slot>, t: real, k: int) {
    && 0 <= k < |slots|
    && slots[k].breakpoint <= t
    && forall j :: k < j < |slots| ==> slots[j].breakpoint > t
  }

  /**
   * The `filter(|(_, temp)| *temp <= t).next_back()` scan: the index of the
   * last slot whose breakpoint is at or below `t`, if any.
   */
  function LastAtOrBelow(slots: seq<Slot>, t: real): (r: Option<nat>)
    ensures r.None? ==> forall j :: 0 <= j < |slots| ==> slots[j].breakpoint > t
    ensures r.Some? ==> r.value < |slots| && slots[r.value].breakpoint <= t
    ensures r.Some? ==> forall j :: r.value < j < |slots| ==> slots[j].breakpoint > t
  {
    if |slots| == 0 then None
    else if slots[|slots| - 1].breakpoint <= t then Some(|slots| - 1)
    else LastAtOrBelow(slots[..|slots| - 1], t)
  }

  /**
   * `Fan::choose_speed`: the state of the last slot whose breakpoint is at or
   * below `t`, else the fallback `(state.min, threshold.min)`'s state.
   */
  function ChooseSpeed(fan: Fan, cfg: Config, t: real): (s: u32)
    ensures (forall j :: 0 <= j < |fan.tempSlots| ==> fan.tempSlots[j].breakpoint > t) ==> s == cfg.state.min
    ensures s == cfg.state.min || exists k :: 0 <= k < |fan.tempSlots| && s == fan.tempSlots[k].state
  {
    match LastAtOrBelow(fan.tempSlots, t)
    case Some(k) => fan.tempSlots[k].state
    case None => cfg.state.min
  }

  /** When some breakpoint is at or below `t`, the state chosen is that of the last such slot. */
  lemma ChooseSpeedSelectsLast(fan: Fan, cfg: Config, t: real)
    requires exists j :: 0 <= j < |fan.tempSlots| && fan.tempSlots[j].breakpoint <= t
    ensures exists k :: IsLastAtOrBelow(fan.tempSlots, t, k) && ChooseSpeed(fan, cfg, t) == fan.tempSlots[k].state
  {
    var k := LastAtOrBelow(fan.tempSlots, t).value;
    assert IsLastAtOrBelow(fan.tempSlots, t, k);
  }

  /**
   * `Fan::new_fan_device`: read `max_state` (unwrap), find a thermal zone
   * (unwrap), build the table, then validate the configuration against this
   * device. The panics come in that order, so a table-building failure wins
   * over a validation failure.
   */
  function NewFanDevice(cfg: Config, maxStateRead: Option<u32>, sensorFound: bool): (r: Result<Fan, FanError>)
    ensures maxStateRead.None? ==> r == Err(MaxStateUnreadable)
    ensures maxStateRead.Some? && !sensorFound ==> r == Err(NoThermalZone)
    ensures maxStateRead.Some? && sensorFound && GetTemperatureSlots(cfg, maxStateRead.value).Err? ==>
              r == Err(StateUnderflow)
    ensures r.Ok? ==> maxStateRead.Some? && r.value.maxState == maxStateRead.value
    ensures r.Ok? ==> r.value.lastState.None?
    ensures r.Ok? ==> Accepted(cfg, Some(r.value.maxState))
    ensures r.Ok? <==> maxStateRead.Some? && sensorFound && Accepted(cfg, maxStateRead)
                       && GetTemperatureSlots(cfg, maxStateRead.value).Ok?
    ensures r.Ok? ==> r.value.tempSlots == GetTemperatureSlots(cfg, r.value.maxState).value
  {
    match maxStateRead
    case None => Err(MaxStateUnreadable)
    case Some(m) =>
      if !sensorFound then Err(NoThermalZone)
      else match GetTemperatureSlots(cfg, m)
      case Err(e) => Err(e)
      case Ok(slots) =>
        match CheckConfig(cfg, Some(m))
        case Fail(e) => Err(InvalidConfig(e))
        case Pass => Ok(Fan(m, slots, None))
  }

  /** `Fan::new`: no device found is not an error; a found device is built (or aborts). */
  function FanNew(cfg: Config, probe: Discovery): (r: Result<Option<Fan>, FanError>)
    ensures probe.Missing? ==> r == Ok(None)
    ensures probe.Found? ==> (r.Ok? <==> NewFanDevice(cfg, probe.maxStateRead, probe.sensorFound).Ok?)
    ensures r.Ok? && r.value.Some? ==> NewFanDevice(cfg, probe.maxStateRead, probe.sensorFound) == Ok(r.value.value)
  {
    match probe
    case Missing => Ok(None)
    case Found(read, sensorFound) =>
      match NewFanDevice(cfg, read, sensorFound)
      case Ok(fan) => Ok(Some(fan))
      case Err(e) => Err(e)
  }

  /** A fan handle exactly as `new_fan_device` built it, apart from the cached last state. */
  predicate Built(cfg: Config, fan: Fan) {
    NewFanDevice(cfg, Some(fan.maxState), true) == Ok(fan.(lastState := None))
  }

  /** A state the selection can produce for a built fan. */
  predicate Selectable(cfg: Config, fan: Fan, s: u32) {
    s == cfg.state.min
    || (cfg.state.min < s <= cfg.state.EffectiveMax(fan.maxState) && s <= fan.maxState)
  }

  /**
   * Whatever the temperature, a built fan selects `state.min` or a state above
   * it that stays within both the effective ceiling and the device's own
   * `max_state`.
   */
  lemma ChooseSpeedInRange(cfg: Config, fan: Fan, t: real)
    requires Built(cfg, fan)
    ensures Selectable(cfg, fan, ChooseSpeed(fan, cfg, t))
  {
    var eff := cfg.state.EffectiveMax(fan.maxState);
    assert Accepted(cfg, Some(fan.maxState));
    assert eff <= fan.maxState;
    var s := ChooseSpeed(fan, cfg, t);
    if s != cfg.state.min {
      var k :| 0 <= k < |fan.tempSlots| && s == fan.tempSlots[k].state;
      assert fan.tempSlots == CalculateSlots(cfg, eff);
    }
  }

  /**
   * Selection is monotone in the temperature for any table whose states do
   * not decrease and never fall below the fallback.
   */
  lemma ChooseSpeedMonotone(cfg: Config, fan: Fan, t1: real, t2: real)
    requires t1 <= t2
    requires forall i, j :: 0 <= i < j < |fan.tempSlots| ==> fan.tempSlots[i].state <= fan.tempSlots[j].state
    requires forall i :: 0 <= i < |fan.tempSlots| ==> cfg.state.min <= fan.tempSlots[i].state
    ensures ChooseSpeed(fan, cfg, t1) <= ChooseSpeed(fan, cfg, t2)
  {
    var r1 := LastAtOrBelow(fan.tempSlots, t1);
    var r2 := LastAtOrBelow(fan.tempSlots, t2);
    if r1.Some? {
      assert fan.tempSlots[r1.value].breakpoint <= t2;
      assert r2.Some? && r1.value <= r2.value;
    }
  }

  /** A built fan's table satisfies the premises of ChooseSpeedMonotone, so its selection is monotone. */
  lemma BuiltFanMonotone(cfg: Config, fan: Fan, t1: real, t2: real)
    requires Built(cfg, fan)
    requires t1 <= t2
    ensures ChooseSpeed(fan, cfg, t1) <= ChooseSpeed(fan, cfg, t2)
  {
    var eff := cfg.state.EffectiveMax(fan.maxState);
    if eff != 0 {
      assert fan.tempSlots == CalculateSlots(cfg, eff);
    }
    ChooseSpeedMonotone(cfg, fan, t1, t2);
  }

  /** Below `threshold.min` a built fan selects `state.min`. */
  lemma BelowRangeSelectsMin(cfg: Config, fan: Fan, t: real)
    requires Built(cfg, fan)
    requires t < cfg.threshold.min
    ensures ChooseSpeed(fan, cfg, t) == cfg.state.min
  {
    var eff := cfg.state.EffectiveMax(fan.maxState);
    if eff != 0 {
      assert fan.tempSlots == CalculateSlots(cfg, eff);
    }
  }

  /**
   * At or above `threshold.max` a built fan selects the effective ceiling,
   * provided the state range is not inverted (an empty table selects
   * `state.min`, which is then the ceiling).
   */
  lemma AboveRangeSelectsCeiling(cfg: Config, fan: Fan, t: real)
    requires Built(cfg, fan)
    requires cfg.state.min <= cfg.state.EffectiveMax(fan.maxState)
    requires t >= cfg.threshold.max
    ensures ChooseSpeed(fan, cfg, t) == cfg.state.EffectiveMax(fan.maxState)
  {
    var eff := cfg.state.EffectiveMax(fan.maxState);
    if eff != 0 {
      var slots := fan.tempSlots;
      assert slots == CalculateSlots(cfg, eff);
      if |slots| > 0 {
        assert slots[|slots| - 1].breakpoint <= t;
        assert LastAtOrBelow(slots, t) == Some(|slots| - 1);
      }
    }
  }

  /**
   * A configuration that passes validation with a configured ceiling always
   * yields a non-empty, strictly increasing table for a device that admits it.
   */
  lemma AcceptedConfigBuildsTable(cfg: Config, deviceMax: u32)
    requires Accepted(cfg, Some(deviceMax))
    requires cfg.state.max.Some?
    ensures NewFanDevice(cfg, Some(deviceMax), true).Ok?
    ensures var slots := NewFanDevice(cfg, Some(deviceMax), true).value.tempSlots;
            && |slots| == cfg.state.max.value - cfg.state.min >= 1
            && StatesIncreasing(slots) && BreakpointsIncreasing(slots)
  {
    assert CheckConfig(cfg, Some(deviceMax)).Pass?;
    assert GetTemperatureSlots(cfg, deviceMax) == Ok(CalculateSlots(cfg, cfg.state.EffectiveMax(deviceMax)));
  }

  /** The unit test's table: states 0..5 over 40..80 degrees, and 60 degrees selects state 3. */
  lemma UnitTestTable()
    ensures var cfg := Config(Threshold(40.0, 80.0), State(0, Some(5)), 5);
            && CalculateSlots(cfg, 5)
               == [Slot(1, 40.0), Slot(2, 50.0), Slot(3, 60.0), Slot(4, 70.0), Slot(5, 80.0)]
            && ChooseSpeed(Fan(5, CalculateSlots(cfg, 5), None), cfg, 60.0) == 3
  {
    var cfg := Config(Threshold(40.0, 80.0), State(0, Some(5)), 5);
    var slots := CalculateSlots(cfg, 5);
    assert SlotStep(cfg, 5) == 10.0;
    assert Breakpoint(cfg, 5, 1) == 50.0 && Breakpoint(cfg, 5, 2) == 60.0 && Breakpoint(cfg, 5, 3) == 70.0;
    assert slots[1] == Slot(2, 50.0);
    assert slots[2] == Slot(3, 60.0);
    assert slots[3] == Slot(4, 70.0);
    assert LastAtOrBelow(slots, 60.0) == Some(2) by {
      assert LastAtOrBelow(slots[..4], 60.0) == LastAtOrBelow(slots[..3], 60.0);
      assert slots[..4][..3] == slots[..3];
    }
  }
}

=== FILE: legacy_controller.dfy ===
/**
 * The earlier controller revision (src/cheker.rs, the module src/lib.rs
 * declares). Same fields as the current `Checker`, but each tick first reads
 * the fan's `cur_state` file, keeps the sensor handle when its read fails
 * (refreshing its path in place when a sensor can be rediscovered), and
 * writes when the state read back differs from the desired one or on the
 * first run.
 */
module LegacyController {
  import opened Wrappers
  import opened Configuration
  import opened Thermal
  import opened FanControl
  import opened Controller

  /** Reading the `cur_state` file: an I/O failure, text that is not a u32, or the parsed speed. */
  datatype CurStateRead = ReadFailed | Unparsable | Parsed(speed: u32)

  /**
   * The filesystem's answers during one tick: fan discovery, the
   * `cur_state` read, sensor discovery, the temperature read, the sensor
   * path rediscovery tried after a failed read, and the write's success.
   */
  datatype LegacyOracles = LegacyOracles(
    fanProbe: Discovery,
    curState: CurStateRead,
    tempProbe: Option<Path>,
    tempRead: Option<real>,
    tempRepath: Option<Path>,
    writeOk: bool)

  /** One tick of the earlier `adjust_speed`. */
  function LegacyStep(cfg: Config, s: CheckerState, o: LegacyOracles): (r: TickResult)
    ensures s.isInit ==> r.next.isInit
    ensures r.abort.Some? ==> r.next == s && r.written.None?
    // `is_init` is set only on a tick that parsed `cur_state` and read a temperature
    ensures r.next.isInit && !s.isInit ==> o.curState.Parsed? && o.tempRead.Some?
    ensures r.written.Some? ==> r.next.isInit
    // the write rule: a differing speed read back, or the first run
    ensures r.written.Some? ==>
              o.curState.Parsed? && (o.curState.speed != r.written.value || !s.isInit)
    ensures r.written.Some? ==> s.fanDevice.None? || s.fanDevice.value.lastState != r.written
    ensures r.written.Some? ==>
              if o.writeOk then r.next.fanDevice.Some? && r.next.fanDevice.value.lastState == r.written
              else r.next.fanDevice.None?
    // an unreadable `cur_state` drops the fan and returns before the sensor is touched
    ensures o.curState.ReadFailed? ==>
              r.next == s.(fanDevice := None) && r.written.None?
    // this revision never drops the sensor handle
    ensures s.tempDevice.Some? ==> r.next.tempDevice.Some?
    // a write leaves the sensor handle the tick worked with in place
    ensures r.written.Some? ==> r.next.tempDevice == HeldOrFoundSensor(s, o.tempProbe)
  {
    var fanOrAbort :=
      if s.fanDevice.Some? then Ok(s.fanDevice)
      else if o.fanProbe.Missing? then Ok(None)
      else match NewFanDevice(cfg, o.fanProbe.maxStateRead, o.fanProbe.sensorFound)
        case Ok(f) => Ok(Some(f))
        case Err(e) => Err(e);
    if fanOrAbort.Err? then TickResult(s, None, Some(fanOrAbort.error))
    else if fanOrAbort.value.None? then TickResult(s, None, None)
    else
      var fan := fanOrAbort.value.value;
      var s1 := s.(fanDevice := Some(fan));
      if o.curState.ReadFailed? then TickResult(s1.(fanDevice := None), None, None)
      else if s.tempDevice.None? && o.tempProbe.None? then TickResult(s1, None, None)
      else
        var s2 := if s.tempDevice.Some? then s1 else s1.(tempDevice := Some(Temp(o.tempProbe.value)));
        if o.tempRead.None? then
          if o.tempRepath.Some? then
            TickResult(s2.(tempDevice := Some(s2.tempDevice.value.(path := o.tempRepath.value))), None, None)
          else TickResult(s2, None, None)
        else if o.curState.Unparsable? then TickResult(s2, None, None)
        else
          var desired := ChooseSpeed(fan, cfg, o.tempRead.value);
          if fan.lastState == Some(desired) then TickResult(s2, None, None)
          else if o.curState.speed != desired || !s.isInit then
            if o.writeOk then
              TickResult(s2.(isInit := true, fanDevice := Some(fan.(lastState := Some(desired)))), Some(desired), None)
            else
              TickResult(s2.(isInit := true, fanDevice := None), Some(desired), None)
          else TickResult(s2.(isInit := true), None, None)
  }

  /** The `Checker` struct of src/cheker.rs, named apart from the current `Controller.Checker`. */
  class LegacyChecker {
    var isInit: bool
    const config: Config
    var fanDevice: Option<Fan>
    var tempDevice: Option<Temp>

    function State(): CheckerState
      reads this
    {
      CheckerState(isInit, fanDevice, tempDevice)
    }

    predicate Valid()
      reads this
    {
      ValidState(config, State())
    }

    /** `Checker::new` of this revision; as there, a panic while building the fan is excluded. */
    constructor (config: Config, tempProbe: Option<Path>, fanProbe: Discovery)
      requires FanNew(config, fanProbe).Ok?
      ensures Valid()
      ensures this.config == config
      ensures State() == CheckerState(false, FanNew(config, fanProbe).value,
                                      if tempProbe.Some? then Some(Temp(tempProbe.value)) else None)
    {
      this.isInit := false;
      this.config := config;
      this.fanDevice := FanNew(config, fanProbe).value;
      this.tempDevice := if tempProbe.Some? then Some(Temp(tempProbe.value)) else None;
    }

    /** `Checker::adjust_speed` of this revision. */
    method AdjustSpeed(o: LegacyOracles) returns (written: Option<u32>, abort: Option<FanError>)
      requires Valid()
      modifies this
      ensures Valid()
      ensures TickResult(State(), written, abort) == LegacyStep(config, old(State()), o)
    {
      LegacyStepKeepsValid(config, State(), o);
      written, abort := None, None;
      if fanDevice.None? {
        match o.fanProbe
        case Missing =>
          return;
        case Found(read, sensorFound) =>
          var built := NewFanDevice(config, read, sensorFound);
          if built.Err? {
            abort := Some(built.error);
            return;
          }
          fanDevice := Some(built.value);
      }
      var fan := fanDevice.value;

      if o.curState.ReadFailed? {
        fanDevice := None;
        return;
      }

      if tempDevice.None? {
        if o.tempProbe.None? {
          return;
        }
        tempDevice := Some(Temp(o.tempProbe.value));
      }

      if o.tempRead.None? {
        if o.tempRepath.Some? {
          tempDevice := Some(tempDevice.value.(path := o.tempRepath.value));
        }
        return;
      }

      match o.curState
      case Parsed(speed) =>
        var desired := ChooseSpeed(fan, config, o.tempRead.value);
        if fan.lastState == Some(desired) {
          return;
        }
        if speed != desired || !isInit {
          written := Some(desired);
          if o.writeOk {
            fanDevice := Some(fan.(lastState := Some(desired)));
          } else {
            fanDevice := None;
          }
        }
        if !isInit {
          isInit := true;
        }
      case Unparsable =>
    }
  }

  /** Every tick keeps the checker's invariant. */
  lemma LegacyStepKeepsValid(cfg: Config, s: CheckerState, o: LegacyOracles)
    requires ValidState(cfg, s)
    ensures ValidState(cfg, LegacyStep(cfg, s, o).next)
  {
    var r := LegacyStep(cfg, s, o);
    if r.next.fanDevice.Some? && r.abort.None? && r.next.fanDevice != s.fanDevice {
      // the handle was rebuilt this tick, or its cached state was just written
      var fan := if s.fanDevice.Some? then s.fanDevice.value else NewFanDevice(cfg, o.fanProbe.maxStateRead, o.fanProbe.sensorFound).value;
      assert Built(cfg, fan);
      if r.written.Some? {
        ChooseSpeedInRange(cfg, fan, o.tempRead.value);
        assert r.next.fanDevice == Some(fan.(lastState := r.written));
      } else {
        assert r.next.fanDevice == Some(fan) && fan.lastState.None?;
      }
    }
  }

  /**
   * Once the tick holds a fan handle (kept or just built) and a sensor handle
   * (kept or just found), `cur_state` parses, the temperature reads and the
   * cached state differs from the desired one, a write is attempted exactly
   * when the speed read back differs or this is the first run, and `is_init`
   * is true afterwards whatever the write's outcome. When no write is needed
   * the only change is keeping the handles the tick acquired and setting
   * `is_init`, which was already true.
   */
  lemma LegacyWriteRule(cfg: Config, s: CheckerState, o: LegacyOracles)
    requires HeldOrBuiltFan(cfg, s, o.fanProbe).Some? && HeldOrFoundSensor(s, o.tempProbe).Some?
    requires o.curState.Parsed? && o.tempRead.Some?
    requires var fan := HeldOrBuiltFan(cfg, s, o.fanProbe).value;
             fan.lastState != Some(ChooseSpeed(fan, cfg, o.tempRead.value))
    ensures var r := LegacyStep(cfg, s, o);
            var desired := ChooseSpeed(HeldOrBuiltFan(cfg, s, o.fanProbe).value, cfg, o.tempRead.value);
            && r.abort.None?
            && (r.written.Some? <==> o.curState.speed != desired || !s.isInit)
            && (r.written.Some? ==> r.written.value == desired)
            && r.next.isInit
            && r.next.tempDevice == HeldOrFoundSensor(s, o.tempProbe)
            && (r.written.None? ==>
                  r == TickResult(s.(fanDevice := HeldOrBuiltFan(cfg, s, o.fanProbe),
                                     tempDevice := HeldOrFoundSensor(s, o.tempProbe)), None, None))
  {
  }

  /**
   * The cached state equals the desired one: nothing is written and
   * `is_init` is left alone; the only change is keeping the handles the tick
   * acquired.
   */
  lemma LegacyCachedStateSkips(cfg: Config, s: CheckerState, o: LegacyOracles)
    requires HeldOrBuiltFan(cfg, s, o.fanProbe).Some? && HeldOrFoundSensor(s, o.tempProbe).Some?
    requires o.curState.Parsed? && o.tempRead.Some?
    requires var fan := HeldOrBuiltFan(cfg, s, o.fanProbe).value;
             fan.lastState == Some(ChooseSpeed(fan, cfg, o.tempRead.value))
    ensures LegacyStep(cfg, s, o) ==
              TickResult(s.(fanDevice := HeldOrBuiltFan(cfg, s, o.fanProbe),
                            tempDevice := HeldOrFoundSensor(s, o.tempProbe)), None, None)
    ensures s.fanDevice.Some? && s.tempDevice.Some? ==> LegacyStep(cfg, s, o) == TickResult(s, None, None)
  {
  }

  /**
   * A failed temperature read keeps the sensor handle; its path is replaced
   * only when rediscovery finds one; nothing is written.
   */
  lemma LegacyFailedReadRefreshesPath(cfg: Config, s: CheckerState, o: LegacyOracles)
    requires s.fanDevice.Some? && s.tempDevice.Some?
    requires !o.curState.ReadFailed? && o.tempRead.None?
    ensures var r := LegacyStep(cfg, s, o);
            && r.written.None?
            && r.next.isInit == s.isInit && r.next.fanDevice == s.fanDevice
            && r.next.tempDevice == Some(Temp(o.tempRepath.GetOr(s.tempDevice.value.path)))
  {
  }

  /**
   * A fan rediscovered while no thermal zone is readable: building its handle
   * panics in the sensor scan, so the tick aborts, changes nothing and writes
   * nothing, before the controller's own sensor check is reached.
   */
  lemma LegacyRediscoveryWithoutSensorAborts(cfg: Config, s: CheckerState, o: LegacyOracles)
    requires s.fanDevice.None? && o.fanProbe.Found?
    requires o.fanProbe.maxStateRead.Some? && !o.fanProbe.sensorFound
    ensures LegacyStep(cfg, s, o) == TickResult(s, None, Some(NoThermalZone))
  {
  }

  /** No fan and none discovered: the tick changes nothing and writes nothing. */
  lemma LegacyNoFanIsNoOp(cfg: Config, s: CheckerState, o: LegacyOracles)
    requires s.fanDevice.None? && o.fanProbe.Missing?
    ensures LegacyStep(cfg, s, o) == TickResult(s, None, None)
  {
  }

  /** `cur_state` that does not parse: nothing changes and nothing is written. */
  lemma LegacyUnparsableIsNoOp(cfg: Config, s: CheckerState, o: LegacyOracles)
    requires s.fanDevice.Some? && s.tempDevice.Some?
    requires o.curState.Unparsable? && o.tempRead.Some?
    ensures LegacyStep(cfg, s, o) == TickResult(s, None, None)
  {
  }
}

=== FILE: real_arith.dfy ===
/** Small facts of real arithmetic, each proved in isolation so the table proofs stay cheap. */
module RealArith {

  lemma ProductNonNegative(x: real, y: real)
    requires x >= 0.0 && y >= 0.0
    ensures x * y >= 0.0
  {
  }

  lemma ProductPositive(x: real, y: real)
    requires x > 0.0 && y > 0.0
    ensures x * y > 0.0
  {
  }

  lemma DifferenceOfMultiples(a: real, b: real, c: real)
    ensures b * c - a * c == (b - a) * c
  {
  }

  lemma DivideThenMultiply(d: real, k: real)
    requires k != 0.0
    ensures k * (d / k) == d
  {
  }

  lemma QuotientPositive(d: real, k: real)
    requires d > 0.0 && k > 0.0
    ensures d / k > 0.0
  {
  }
}

=== FILE: standalone.dfy ===
/**
 * The original single-file controller (src/main.rs): a fixed 45..65 degree
 * range over the states `0..=max_state`, a selection that falls back to the
 * first slot, a write rule keyed on the speed read back from the device, and
 * the hottest reading over all thermal zones. Every directory scan and file
 * access is an oracle outcome passed in as a parameter.
 */
module Standalone {
  import opened Wrappers
  import opened FanControl
  import opened RealArith

  const LOWER_TEMP_THRESHOLD: real := 45.0
  const UPPER_TEMP_THRESHOLD: real := 65.0
  const MIN_STATE: u32 := 0

  /** Breakpoint of entry `x`: `x * step + LOWER_TEMP_THRESHOLD` with `step = (UPPER - LOWER) / max_state`. */
  function MainBreakpoint(maxState: nat, x: nat): real
    requires maxState > 0
  {
    x as real * ((UPPER_TEMP_THRESHOLD - LOWER_TEMP_THRESHOLD) / maxState as real) + LOWER_TEMP_THRESHOLD
  }

  /** The breakpoints run from exactly 45 to exactly 65 in equal, strictly increasing steps. */
  lemma MainBreakpointFacts(maxState: nat)
    requires maxState > 0
    ensures MainBreakpoint(maxState, 0) == LOWER_TEMP_THRESHOLD
    ensures MainBreakpoint(maxState, maxState) == UPPER_TEMP_THRESHOLD
    ensures forall x: nat, y: nat :: x < y ==> MainBreakpoint(maxState, x) < MainBreakpoint(maxState, y)
    ensures forall x: nat :: x <= maxState ==>
              LOWER_TEMP_THRESHOLD <= MainBreakpoint(maxState, x) <= UPPER_TEMP_THRESHOLD
  {
    var k := maxState as real;
    var step := (UPPER_TEMP_THRESHOLD - LOWER_TEMP_THRESHOLD) / k;
    DivideThenMultiply(UPPER_TEMP_THRESHOLD - LOWER_TEMP_THRESHOLD, k);
    QuotientPositive(UPPER_TEMP_THRESHOLD - LOWER_TEMP_THRESHOLD, k);
    forall x: nat, y: nat | x < y ensures MainBreakpoint(maxState, x) < MainBreakpoint(maxState, y) {
      DifferenceOfMultiples(x as real, y as real, step);
      ProductPositive(y as real - x as real, step);
    }
    forall x: nat | x <= maxState
      ensures LOWER_TEMP_THRESHOLD <= MainBreakpoint(maxState, x) <= UPPER_TEMP_THRESHOLD
    {
      ProductNonNegative(x as real, step);
      DifferenceOfMultiples(x as real, k, step);
      ProductNonNegative(k - x as real, step);
    }
  }

  /** The table for a non-zero `max_state`: entry `x` is `(x + MIN_STATE, x * step + 45)` for `x` in `0..=max_state`. */
  function SlotsFor(maxState: u32): (slots: seq<Slot>)
    requires maxState > 0
    ensures |slots| == maxState + 1
    ensures forall x :: 0 <= x < |slots| ==> slots[x].state == x + MIN_STATE
    ensures slots[0].breakpoint == LOWER_TEMP_THRESHOLD
    ensures slots[maxState].breakpoint == UPPER_TEMP_THRESHOLD
    ensures StatesIncreasing(slots) && BreakpointsIncreasing(slots)
    ensures forall x :: 0 <= x < |slots| ==>
              LOWER_TEMP_THRESHOLD <= slots[x].breakpoint <= UPPER_TEMP_THRESHOLD
  {
    MainBreakpointFacts(maxState);
    seq(maxState + 1, x requires 0 <= x <= maxState => Slot(x + MIN_STATE, MainBreakpoint(maxState, x)))
  }

  /**
   * Outcome of this program's fan discovery: no `pwm-fan` cooling device, or
   * one whose `max_state` file read as given. No thermal-zone scan is part of it.
   */
  datatype FanProbe = NoFanDevice | FanDevice(maxStateRead: Option<u32>)

  /**
   * `get_temperature_slots`: no fan device, or a `max_state` that is
   * unreadable (read as 0) or 0, gives the empty table.
   */
  function GetTemperatureSlots(probe: FanProbe): (slots: seq<Slot>)
    ensures slots == [] <==> probe.NoFanDevice? || probe.maxStateRead.GetOr(0) == 0
    ensures slots != [] ==> slots == SlotsFor(probe.maxStateRead.value)
  {
    match probe
    case NoFanDevice => []
    case FanDevice(read) =>
      var maxState := read.GetOr(0);
      if maxState == 0 then [] else SlotsFor(maxState)
  }

  /**
   * The slot `adjust_speed` picks: the last one whose breakpoint is at or
   * below `t`, else the first slot, else `(MIN_STATE, LOWER_TEMP_THRESHOLD)`.
   */
  function ChooseSlot(slots: seq<Slot>, t: real): (s: Slot)
    ensures (exists j :: 0 <= j < |slots| && slots[j].breakpoint <= t) ==>
              exists k :: IsLastAtOrBelow(slots, t, k) && s == slots[k]
    ensures (forall j :: 0 <= j < |slots| ==> slots[j].breakpoint > t) ==>
              s == if |slots| > 0 then slots[0] else Slot(MIN_STATE, LOWER_TEMP_THRESHOLD)
  {
    match LastAtOrBelow(slots, t)
    case Some(k) => slots[k]
    case None => if |slots| > 0 then slots[0] else Slot(MIN_STATE, LOWER_TEMP_THRESHOLD)
  }

  /**
   * On the tables this program builds, falling back to the first slot is the
   * same as falling back to `MIN_STATE`: below 45 degrees the state is 0, at
   * or above 65 it is `max_state`, and the choice is monotone in the
   * temperature.
   */
  lemma MainSelection(probe: FanProbe, t1: real, t2: real)
    requires t1 <= t2
    ensures var slots := GetTemperatureSlots(probe);
            && (t1 < LOWER_TEMP_THRESHOLD ==> ChooseSlot(slots, t1).state == MIN_STATE)
            && (slots != [] && t2 >= UPPER_TEMP_THRESHOLD ==> ChooseSlot(slots, t2).state == |slots| - 1)
            && ChooseSlot(slots, t1).state <= ChooseSlot(slots, t2).state
  {
    var slots := GetTemperatureSlots(probe);
    if slots != [] {
      var last := |slots| - 1;
      if t2 >= UPPER_TEMP_THRESHOLD {
        assert slots[last].breakpoint <= t2;
        assert LastAtOrBelow(slots, t2) == Some(last);
      }
      var r1 := LastAtOrBelow(slots, t1);
      var r2 := LastAtOrBelow(slots, t2);
      if r1.Some? {
        assert slots[r1.value].breakpoint <= t2;
        assert r2.Some? && r1.value <= r2.value;
      }
    }
  }

  /** `get_fan_speed`: the parsed `cur_state`, or 0 when it cannot be read or parsed. */
  function GetFanSpeed(curStateRead: Option<u32>): (speed: u32)
    ensures curStateRead.Some? ==> speed == curStateRead.value
    ensures curStateRead.None? ==> speed == 0
  {
    curStateRead.GetOr(0)
  }

  /**
   * `adjust_speed(current_temp, &mut is_init)`: `isInit` is the flag before
   * the call and `isInitAfter` after it. The oracles are the discovery used
   * by `get_temperature_slots`, the second fan discovery, the `cur_state`
   * read and the write's success; a failing write panics (`unwrap`), which
   * is `aborted` and leaves the flag unset.
   */
  method AdjustSpeed(currentTemp: real, isInit: bool, slotsProbe: FanProbe, fanFound: bool,
                     curStateRead: Option<u32>, writeOk: bool)
    returns (isInitAfter: bool, written: Option<u32>, aborted: bool)
    ensures var desired := ChooseSlot(GetTemperatureSlots(slotsProbe), currentTemp).state;
            written.Some? ==> written.value == desired
    ensures var desired := ChooseSlot(GetTemperatureSlots(slotsProbe), currentTemp).state;
            written.Some? <==> fanFound && (GetFanSpeed(curStateRead) != desired || !isInit)
    ensures aborted <==> written.Some? && !writeOk
    ensures !fanFound ==> isInitAfter == isInit
    ensures fanFound && !aborted ==> isInitAfter
    ensures aborted ==> isInitAfter == isInit
  {
    var slots := GetTemperatureSlots(slotsProbe);
    var desiredState := ChooseSlot(slots, currentTemp).state;
    isInitAfter, written, aborted := isInit, None, false;

    if !fanFound {
      return;
    }

    if GetFanSpeed(curStateRead) != desiredState || !isInit {
      written := Some(desiredState);
      if !writeOk {
        aborted := true;
        return;
      }
    }
    if !isInit {
      isInitAfter := true;
    }
  }

  /**
   * `get_current_temp`: one entry per directory entry of the thermal
   * directory, `Some(v)` when it is a thermal zone whose `temp` file reads
   * and parses as `v` millidegrees (an unreadable directory has no entries).
   * The readings are collected, divided by 1000 and folded with `max`
   * starting from 0.0, so the result is the hottest reading, or 0.0 when
   * none is above it.
   */
  method GetCurrentTemp(readings: seq<Option<real>>) returns (t: real)
    ensures 0.0 <= t
    ensures forall i :: 0 <= i < |readings| && readings[i].Some? ==> readings[i].value / 1000.0 <= t
    ensures t == 0.0 || exists i :: 0 <= i < |readings| && readings[i].Some? && t == readings[i].value / 1000.0
  {
    var temps: seq<real> := [];
    for i := 0 to |readings|
      invariant forall k :: 0 <= k < |temps| ==>
                  exists j :: 0 <= j < i && readings[j].Some? && temps[k] == readings[j].value / 1000.0
      invariant forall j :: 0 <= j < i && readings[j].Some? ==> readings[j].value / 1000.0 in temps
    {
      if readings[i].Some? {
        temps := temps + [readings[i].value / 1000.0];
      }
    }

    t := 0.0;
    for k := 0 to |temps|
      invariant 0.0 <= t
      invariant forall m :: 0 <= m < k ==> temps[m] <= t
      invariant t == 0.0 || exists m :: 0 <= m < k && t == temps[m]
    {
      if temps[k] > t {
        t := temps[k];
      }
    }
  }
}

=== FILE: thermal.dfy ===
/**
 * The temperature-sensor handle of src/temp.rs. Scanning the thermal-zone
 * directory and reading the sensor file are I/O: the controllers receive
 * their outcomes as oracle values.
 */
module Thermal {

  /** A filesystem path, compared only for identity. */
  type Path = string

  /** `Temp { path }`: the handle owns the path of one sensor value file. */
  datatype Temp = Temp(path: Path)
}

=== FILE: wrappers.dfy ===
/** Failure-carrying datatypes shared by every module of the model. */
module Wrappers {

  datatype Option<+T> = None | Some(value: T) {
    /** The wrapped value, or `default` when there is none (Rust's `unwrap_or`). */
    function GetOr(default: T): T {
      match this
      case Some(v) => v
      case None => default
    }
  }

  datatype Result<+T, +E> = Ok(value: T) | Err(error: E)

  /** Success without a value, or one failure tag. */
  datatype Outcome<+E> = Pass | Fail(error: E)

  /** Unsigned 32-bit integers, the width of every cooling state in the program. */
  type u32 = x: int | 0 <= x < 0x1_0000_0000
}
